=== FILE: README.md ===
# lib.js in Dafny: URL parameters, the JSONP loader and the marquee

A model of the parts of `js/lib.js` whose behaviour can be stated without a
browser. Each part is written as pure functions over immutable values, with
lemmas about them.

- **URL parameter codec** (`url_param.dfy`, `key_escape.dfy`, `js_string.dfy`).
  - `getParam` builds the regular expression `[\?&#]<key>=([^&#]*)`, where
    `key` is the name with its first `[` and its first `]` escaped (later
    brackets stay as they are). Its result is the capture of the leftmost
    match.
  - When the key is a literal pattern for the name, that regular expression
    matches exactly where a delimiter, the name and `=` follow one another. So
    `UrlParam.GetParam` is modelled as a leftmost scan.
  - `KeyEscape` models the escaping of line 108 and proves when the key is a
    literal pattern for the name.
  - `addParam` inserts `?param` or `&param` before the first `#`.
  - `JsString` models `indexOf`, and `substring` as ECMAScript defines it.
- **Loader** (`loader.dfy`). This is the pure part of `loadData`:
  - which callback name a request uses;
  - how `callback=<name>` is spliced into the URL;
  - how the global callback registry changes before and after the script
    loads.

  `window` is a `map<string, F>`. The load is one "completed" transition on
  the registry and a flag that records whether `fn` was called directly.
  `Complete` runs the handler as lib.js writes it. `CompleteCorrected` runs
  the handler that the comments at lines 130-132 and 166 describe; it is the
  corrected half of the first finding below.
- **Marquee** (`marquee.dfy`). The `start`/`move` timer callbacks of
  `initMarquee` become one integer state machine:
  - the state holds the offset (`scrollTop`), the pause flag and a phase:
    `Dwelling` means `start` is scheduled, `Moving` means `move` is on the
    interval;
  - every child is `height` pixels tall, so half of the doubled scroll height
    is `count * height`;
  - one `Tick` runs whichever callback is scheduled.

`substring` semantics. `url.substring(i, -1)` (lines 126 and 147) clamps `-1`
to `0` and then swaps the two arguments. It therefore returns the prefix
`url[..i]`, not an empty string, and the insertion keeps both the text before
the insertion point and the text after it. `JsString.NegativeEndIsPrefix`
states this. A common misreading of `substring` with a negative argument
expects `""` here; the model follows ECMA-262.

Marquee with one-pixel children. `start` scrolls one pixel without checking
for the wrap (line 209). With children at least two pixels tall, that pixel
never reaches the end of the first copy (`TickPreservesInv`). With one-pixel
children, every offset is a child boundary, so `move` never reaches its wrap
check (`UnitHeightNeverWraps`). The offset then runs past the first copy
(`UnitHeightLeavesFirstCopy`).

## Model

| member | source | states |
|---|---|---|
| JsString.IndexOf | js/lib.js:123-124 | `indexOf` gives -1 exactly when the character is absent; otherwise it gives an index holding the character with no earlier occurrence |
| JsString.Substring | js/lib.js:126 | `substring` with both arguments in range returns the slice between them, in either order; two non-positive arguments give the empty string; the result is never longer than the string. `NegativeEndIsPrefix` covers the negative end |
| JsString.NegativeEndIsPrefix | js/lib.js:126 | for `0 <= i <= |s|`, `s.substring(i, -1)` is the prefix before `i`, because of clamping and swapping |
| JsString.SubstringFromIsSuffix | js/lib.js:126 | for `0 <= i <= |s|`, `s.substring(i)` is the suffix from `i` |
| JsString.SubstringFrom | js/lib.js:126 | `substring(i)` is the whole string for `i <= 0` and empty from the length on; `SubstringFromIsSuffix` gives the suffix in between |
| KeyEscape.EscapeKey | js/lib.js:108 | the key adds at most two backslashes however many brackets the name has, and a name without brackets is its own key; `EscapeKeyIsPass` and `EscapeKeyAgrees` pin down where they go |
| KeyEscape.EscapeKeyBounds | js/lib.js:108 | the two chained replaces add between zero and two characters and leave a bracket-free name unchanged |
| KeyEscape.ReplaceFirstLength | js/lib.js:108 | a non-global one-character `replace` replaces at most one character: the length grows by `|rep| - 1` exactly when the character occurs |
| KeyEscape.ReplaceFirstAtIndex | js/lib.js:108 | a non-global one-character `replace` changes only the occurrence at `indexOf`, and leaves a string without the character unchanged |
| KeyEscape.EscapeKeyIsPass | js/lib.js:108 | the two chained replaces equal one left-to-right pass that escapes the first `[` and the first `]` |
| KeyEscape.EscapeKeyAgrees | js/lib.js:108 | for a name with at most one `[` and one `]`, the key of line 108 is the name with every bracket escaped |
| KeyEscape.EscapedNameIsLiteral | js/lib.js:108-109 | for a name with no metacharacter besides at most one `[` and one `]`, the key of line 108 matches exactly the text of the name |
| KeyEscape.TwoPairsKey | js/lib.js:108 | the key for `a[0][1]` is `a\[0\][1]`: the second pair keeps its brackets unescaped |
| KeyEscape.OnlyFirstBracketEscaped | js/lib.js:108 | for the name `a[0][1]` the key of line 108 is not a literal pattern, because the second `[1]` stays a character class |
| KeyEscape.BracketsAreLiteral | js/lib.js:108-109 | escaping every bracket makes any name without other metacharacters a literal pattern for itself |
| UrlParam.FirstMatchFrom | js/lib.js:109-110 | the scan returns a match position that has no match before it, or reports that no match exists |
| UrlParam.ScanFindsMatch | js/lib.js:109-110 | when a match at `p` has no earlier match, the scan returns `p` |
| UrlParam.ValueFrom | js/lib.js:109-111 | the capture `([^&#]*)` holds no `&` or `#` and ends at the end of the URL or before an `&` or `#` |
| UrlParam.ValueUnique | js/lib.js:109-111 | only one capture is possible at a given position |
| UrlParam.GetParam | js/lib.js:105-112 | for a name with no metacharacter except at most one `[` and one `]`, the result is undefined exactly when the name is empty or no `?`, `&` or `#` is followed by `name=`; otherwise it is the capture after the leftmost such occurrence |
| UrlParam.GetParamAt | js/lib.js:105-112 | for a non-empty name with no metacharacter except at most one `[` and one `]`, the leftmost match and the capture after it determine the result |
| UrlParam.FragmentStart | js/lib.js:124 | the insertion point is the first `#`, or the end when there is none; no `#` comes before it |
| UrlParam.Separator | js/lib.js:123 | the separator is `?` exactly when `url.indexOf('?')` is -1, and `&` otherwise |
| UrlParam.AddParamToString | js/lib.js:123-126 | the result is the text before the first `#`, then the separator, then `param`, then the whole fragment |
| UrlParam.AddParam | js/lib.js:120-127 | a non-string URL or an undefined `param` is returned unchanged; otherwise the result is a string exactly one separator and `param` longer, with the separator at the first `#` (or the end), `param` right after it, and cutting both out gives back the URL |
| UrlParam.AddParamKeepsUrl | js/lib.js:123-126 | the result is exactly `param` plus one character longer than the URL; the prefix and the fragment are kept; cutting the inserted piece out gives back the URL |
| UrlParam.AddParamWithoutFragment | js/lib.js:123-125 | without a `#`, `?param` or `&param` is appended |
| UrlParam.InsertedIsLeftmost | js/lib.js:109-110 | a `name=` inserted right after a `?`, `&` or `#` is the leftmost match when the text before it has no delimited `name=` and the name has no `=` |
| UrlParam.InsertedIsRead | js/lib.js:105-112 | for a non-empty name with no `=` and no metacharacter except at most one `[` and one `]`, `name=v` placed after a `?`, `&` or `#` is read back as `v`, provided the text before it has no delimited `name=`, `v` has no `&` or `#`, and the end, `&` or `#` follows `v` |
| UrlParam.AddedParamLayout | js/lib.js:123-126 | `addParam(url, name=v)` is the text before the first `#`, the separator, `name=v` and the fragment, which is empty or starts with `#` |
| UrlParam.GetAfterAdd | js/lib.js:105-127 | round trip: `getParam(addParam(url, name=v), name) == v`, provided the name is non-empty, has no metacharacter except at most one `[` and one `]` and no `=`, the text before the first `#` has no `?`, `&` or `#` followed by `name=`, and the value has no `&` or `#` |
| UrlParam.GetParamExamples | js/lib.js:105-112 | `?a=1&b=2` gives `2` for `b`; `?a=1` gives undefined for `c` |
| Loader.UrlCallback | js/lib.js:141 | the URL's `callback` is undefined exactly when no `?`, `&` or `#` in the URL is followed by `callback=`; otherwise it is the capture after the leftmost such occurrence |
| Loader.Splice | js/lib.js:146-147 | the fragment goes right after the first `?` and is followed by `&`, or is appended after a new `?` |
| Loader.Prepare | js/lib.js:141-147 | a non-empty URL `callback` wins over `fnName`; a fragment is built exactly when the URL gives no non-empty callback and `fnName` is truthy; the URL changes only when a fragment is built |
| Loader.LoadData | js/lib.js:141-149 | when `fn` is a function and the URL or `fnName` names a callback, `fn` is stored under the effective name; otherwise the registry is unchanged; no other entry changes and `fn` has not been called yet |
| Loader.CleanUp | js/lib.js:170-177 | the entry under the effective name is removed exactly when the URL gave no non-empty callback (an empty `callback=` still leads to removal); nothing else changes |
| Loader.Complete | js/lib.js:159-178 | the load handler as written only removes registry entries and never undoes a direct call |
| Loader.CompleteCorrected | js/lib.js:159-178 | corrected handler: the registry ends as with the handler as written; only the direct call differs |
| Loader.CallbackAfterMark | js/lib.js:141-147 | `callback=<n>` right after a `?`, where the text before the `?` has no `?`, `&` or `#` followed by `callback=`, `n` has no `&` or `#`, and the end or `&` follows `n`, is read back as `n` |
| Loader.SpliceIsRead | js/lib.js:141-147 | splicing `callback=<n>` into a URL in which no `?`, `&` or `#` is followed by `callback=` makes `getParam` read back `n`, provided `n` has no `&` or `#` |
| Loader.SourceCarriesCallback | js/lib.js:141-147 | when there is an effective callback name, it has no `&` or `#`, and the URL has either no `callback` or a non-empty one, the URL that is loaded carries that name as its `callback` parameter |
| Loader.UrlCallbackStaysRegistered | js/lib.js:141-177 | for a non-empty URL callback and `fn` a function, that callback is used as given, the URL is unchanged, and `fn` stays registered under that name after the load; as written `fn` is also called directly, and with the corrected handler it is not |
| Loader.JsonpEntryRemovedAfterLoad | js/lib.js:141-177 | with `fn` a function, a non-empty `fnName` and no non-empty URL callback, the fragment is built, `fn` is registered, and it is removed again after the load with the rest of the registry unchanged; `fn` is not called directly |
| Loader.PlainModeCallsFn | js/lib.js:141-177 | with `fn` a function, a falsy `fnName` and no non-empty URL callback, nothing is registered, the URL is unchanged, `fn` is called after the load, and the load removes the entry under the key `fnName` stands for (`"undefined"` when it is undefined) |
| Loader.DirectCallOnlyInPlainMode | js/lib.js:166-167 | corrected: the direct call happens exactly when `fn` is a function and neither the URL nor `fnName` names a callback |
| Loader.DirectCallAsWritten | js/lib.js:143-167 | as written, the direct call happens exactly when `fn` is a function and no fragment was built |
| Loader.UrlCallbackAlsoCalledDirectly | js/lib.js:141-167 | as written, `callback=existing` in the URL gets `fn` registered for the JSONP response and also called directly after the load |
| Loader.ExistingCallbackFound | js/lib.js:141 | `api?callback=existing` carries the callback `existing` |
| Loader.ExistingCallbackExample | js/lib.js:141-177 | `loadData("api?callback=existing", fn, "ignored")` uses `existing` and keeps it registered |
| Loader.PlainExample | js/lib.js:141-167 | `loadData("api", fn)` registers nothing and calls `fn` after the load |
| Marquee.Init | js/lib.js:187-205 | a missing element or fewer than two children gives no marquee; otherwise, for children of positive height, the marquee starts at the top, unpaused and dwelling, and satisfies the invariant |
| Marquee.Hover | js/lib.js:197-203 | hovering sets the pause flag to the hover state, changes nothing else, and keeps the invariant (and cannot restore it) |
| Marquee.Start | js/lib.js:207-210 | `start` switches to moving and scrolls one pixel unless paused; from a dwell that satisfies the invariant, with children at least two pixels tall, the invariant still holds and an unpaused start leaves the boundary by one pixel |
| Marquee.StepOffBoundary | js/lib.js:207-215 | a dwell on a boundary inside the first copy leaves room for a whole child; with children at least two pixels tall, one pixel past a boundary is one pixel into a child |
| Marquee.Move | js/lib.js:212-220 | off a child boundary, `move` either scrolls one pixel or resets to the top; on a boundary it only switches to dwelling |
| Marquee.Tick | js/lib.js:205-220 | one timer callback never changes the child height, the child count or the pause flag, and a `start` always leaves the marquee moving; `TickPreservesInv` gives the invariant |
| Marquee.Ticks | js/lib.js:205-220 | ticks never change the child height, the child count or the pause flag |
| Marquee.RemIsMod | js/lib.js:213 | the child remainder used by the model is JavaScript's `scrollTop % height` for a non-negative offset |
| Marquee.MulIsProduct | js/lib.js:215 | the stacked height of the first copy is `count * height`, half the doubled scroll height |
| Marquee.MoveIsSuccessor | js/lib.js:213-215 | for a marquee that satisfies the invariant and is off a boundary, `move` advances the offset by one modulo half the scroll height |
| Marquee.TickPreservesInv | js/lib.js:207-220 | with children at least two pixels tall, every tick keeps the offset inside the first copy and keeps dwells on child boundaries |
| Marquee.TicksPreserveInv | js/lib.js:207-220 | the same holds after any number of ticks |
| Marquee.TicksAdd | js/lib.js:205-220 | `a + b` ticks are `a` ticks followed by `b` ticks |
| Marquee.MoveWithinChild | js/lib.js:213-215 | a moving marquee inside a child, past its boundary and short of its last pixel, scrolls one pixel with no wrap |
| Marquee.MoveOntoBoundary | js/lib.js:213-215 | with children at least two pixels tall, a moving marquee on the last pixel of child `k` lands on the next child's boundary, or on the top after the last child |
| Marquee.ClimbToBoundary | js/lib.js:212-220 | a moving marquee inside child `k`, past its boundary, keeps moving until it reaches the next boundary, which is the top after the last child |
| Marquee.OnePhaseAdvancesOneChild | js/lib.js:205-220 | with children at least two pixels tall, an unpaused phase that starts on boundary `k` moves for exactly `height` ticks and then dwells on boundary `(k + 1) mod count` |
| Marquee.PausedCycleIsNoop | js/lib.js:207-219 | a paused `start` from a dwell on a boundary does not scroll, and the next `move` dwells again at the same offset |
| Marquee.MoveIgnoresPause | js/lib.js:212-220 | `move` does not read the pause flag |
| Marquee.UnitHeightNeverWraps | js/lib.js:207-219 | with one-pixel children, each unpaused start/move cycle from a dwell adds one pixel and never wraps |
| Marquee.UnitHeightLeavesFirstCopy | js/lib.js:207-219 | with one-pixel children and at least two of them, an unpaused marquee dwelling on its last boundary satisfies the invariant and violates it after one cycle |

## Left out

- `handleScrRotate`, `addEvt`, `stopBubble`, `getWinHeight`, `getWinWidth` and `addHTML` (js/lib.js:11-97). These do host feature detection, DOM parsing and timers, and have no logic of their own to state.
- UrlParam.GetParam: requires a name with no regular-expression metacharacter except at most one `[` and one `]` (`KeyEscape.RegexSafe`). Other names would need a regular-expression engine: with two or more of a bracket, line 108 leaves the later ones unescaped (see Findings), and `x[][]`, for example, yields an empty character class that never matches. `KeyEscape.EscapedNameIsLiteral` shows that the key of line 108 is a literal pattern for every accepted name. The same restriction applies to `UrlParam.GetParamAt`, `UrlParam.InsertedIsRead` and `UrlParam.GetAfterAdd`.
- Non-string arguments. The model takes strings, except for `addParam`'s URL, whose `typeof` check is modelled with `JsValue`. Left out:
  - a truthy non-string `name` for `getParam` throws a TypeError at line 108, because it has no `replace`;
  - a non-string `url` for `getParam` is converted to a string by `exec`;
  - a non-string `url` for `loadData` throws at line 146, because it has no `indexOf`;
  - a defined non-string `param` for `addParam` is converted to a string by the concatenation at line 123 (`addParam("a", null)` gives `"a?null"`); `Option<string>` only distinguishes undefined from a string.
- Strings are sequences of Unicode scalar values, while JavaScript indexes UTF-16 code units. `indexOf` and `substring` are only applied at ASCII delimiters here, so the results agree, but a string holding a lone surrogate cannot be represented.
- Loader script plumbing (js/lib.js:151-164): script element creation, the charset that must be set before `src`, `onload`/`readyState` and the removal of the element. The load is the single `Complete` transition.
- The fallback at js/lib.js:171-176 for browsers where `delete window[name]` throws. In the model, deletion always succeeds.
- Loader values: `fn` is `Some` when it is a function and `None` otherwise. Every value in the registry is a function, so `window[fnName]` is truthy exactly when the key is present. Other globals are not modelled.
- Loader.SourceCarriesCallback: says nothing when the URL already holds an empty `callback=`. In that case, the `callback=` spliced after the first `?` is read back only if no empty `callback=` comes before that `?`.
- Marquee timing: the `setTimeout` and `setInterval` delays, and the `speed / height` interval, become phase changes.
- Marquee layout:
  - the browser's clamping of `scrollTop` to the scrollable range;
  - fractional `scrollTop`;
  - the content doubling at line 194 (taken as `scrollHeight == 2 * count * height`);
  - children of different heights.
- Marquee `height == 0`: `% 0` gives `NaN` in JavaScript. This is excluded by precondition in `Init` and `Move`.
- Marquee hover: hover events between ticks are modelled as separate `Hover` steps, not inside `Ticks`.

## Findings

| source | as written | input that shows it | evidently intended | confidence | as-written member | corrected member |
|---|---|---|---|---|---|---|
| js/lib.js:167 | `fn()` runs after the load whenever `cb` is empty. That includes a URL that brings its own non-empty `callback`, so `fn` is also called directly, without data. | `loadData("api?callback=existing", fn, "ignored")` | `fn` is called directly only when neither the URL nor `fnName` names a callback, as the comments at lines 130-132 and 166 say | medium, not executed | Loader.UrlCallbackAlsoCalledDirectly | Loader.DirectCallOnlyInPlainMode |
| js/lib.js:108 | `replace(/[\[]/, …)` and `replace(/[\]]/, …)` are not global, so only the first `[` and the first `]` are escaped | the name `a[0][1]` | every bracket is escaped, so that any bracketed name matches literally | high, not executed | KeyEscape.OnlyFirstBracketEscaped | KeyEscape.BracketsAreLiteral |

=== FILE: js_string.dfy ===
/** The two ECMAScript string primitives the URL helpers rely on. */
module JsString {

  /** `s.indexOf(c)` for a one-character argument: the first index of `c`, or -1. */
  function IndexOf(s: string, c: char): (r: int)
    ensures -1 <= r < |s|
    ensures r == -1 <==> c !in s
    ensures r >= 0 ==> s[r] == c && c !in s[..r]
  {
    if |s| == 0 then -1
    else if s[0] == c then 0
    else
      var k := IndexOf(s[1..], c);
      if k == -1 then -1
      else
        assert s[..k + 1] == [s[0]] + s[1..][..k];
        k + 1
  }

  /** The argument clamping of `String.prototype.substring`: an integer position
      below 0 becomes 0 and one past the end becomes the length. */
  function Clamp(x: int, len: nat): nat
  {
    if x < 0 then 0 else if x > len then len else x
  }

  /** `s.substring(start, end)` as ECMA-262 defines it: both arguments are
      clamped to [0, |s|] and swapped when the start exceeds the end. */
  function Substring(s: string, start: int, end: int): (r: string)
    ensures |r| <= |s|
    ensures 0 <= start <= end <= |s| ==> r == s[start..end]
    ensures 0 <= end <= start <= |s| ==> r == s[end..start]
    ensures start <= 0 && end <= 0 ==> r == []
  {
    var a := Clamp(start, |s|);
    var b := Clamp(end, |s|);
    if a <= b then s[a..b] else s[b..a]
  }

  /** `s.substring(start)`: the end defaults to the length. */
  function SubstringFrom(s: string, start: int): (r: string)
    ensures start <= 0 ==> r == s
    ensures start >= |s| ==> r == []
  {
    Substring(s, start, |s|)
  }

  /** `s.substring(i, -1)` is the prefix before `i`, not the empty string:
      -1 clamps to 0 and the arguments are swapped. */
  lemma NegativeEndIsPrefix(s: string, i: int)
    requires 0 <= i <= |s|
    ensures Substring(s, i, -1) == s[..i]
  {
  }

  /** `s.substring(i)` is the suffix from `i`. */
  lemma SubstringFromIsSuffix(s: string, i: int)
    requires 0 <= i <= |s|
    ensures SubstringFrom(s, i) == s[i..]
  {
  }
}

=== FILE: key_escape.dfy ===
/** How `getParam` turns a parameter name into a piece of regular expression
    (lib.js line 108): the first `[` and the first `]` get a backslash, and
    nothing else is escaped. */
module KeyEscape {
  import opened Wrappers
  import opened JsString

  /** Characters with a special meaning in a JavaScript regular expression
      outside a character class. */
  predicate IsRegexMeta(c: char)
  {
    || c == '\\' || c == '^' || c == '$' || c == '.' || c == '|' || c == '?' || c == '*'
    || c == '+' || c == '(' || c == ')' || c == '[' || c == ']' || c == '{' || c == '}'
  }

  predicate IsBracket(c: char)
  {
    c == '[' || c == ']'
  }

  /** A name whose escaped key is a literal pattern: no metacharacter other than
      brackets, and at most one `[` and one `]`, since only the first of each
      is escaped. */
  predicate RegexSafe(name: string)
  {
    && OnlyBracketMeta(name)
    && multiset(name)['['] <= 1
    && multiset(name)[']'] <= 1
  }

  /** `s.replace(/c/, rep)` for a one-character pattern without the global
      flag: only the first occurrence of `c` is replaced by `rep`. */
  function ReplaceFirst(s: string, c: char, rep: string): string
  {
    if s == [] then []
    else if s[0] == c then rep + s[1..]
    else [s[0]] + ReplaceFirst(s[1..], c, rep)
  }

  /** The key that lib.js splices into its pattern (line 108). However many
      brackets the name has, at most two backslashes are added, and a name
      without brackets is its own key. */
  function EscapeKey(name: string): (k: string)
    ensures |name| <= |k| <= |name| + 2
    ensures '[' !in name && ']' !in name ==> k == name
  {
    EscapeKeyBounds(name);
    ReplaceFirst(ReplaceFirst(name, '[', "\\["), ']', "\\]")
  }

  /** Each of the two replaces adds at most one backslash, and neither touches
      a name without brackets. */
  lemma EscapeKeyBounds(name: string)
    ensures var k := ReplaceFirst(ReplaceFirst(name, '[', "\\["), ']', "\\]");
      && |name| <= |k| <= |name| + 2
      && ('[' !in name && ']' !in name ==> k == name)
  {
    var once := ReplaceFirst(name, '[', "\\[");
    ReplaceFirstLength(name, '[', "\\[");
    ReplaceFirstLength(once, ']', "\\]");
    if '[' !in name && ']' !in name {
      ReplaceWithoutChar(name, '[', "\\[");
      ReplaceWithoutChar(once, ']', "\\]");
    }
  }

  /** The same key built in one left-to-right pass: `openDone` and `closeDone`
      record whether the first `[` or `]` has already been escaped. */
  function EscapePass(s: string, openDone: bool, closeDone: bool): string
  {
    if s == [] then []
    else if s[0] == '[' && !openDone then "\\[" + EscapePass(s[1..], true, closeDone)
    else if s[0] == ']' && !closeDone then "\\]" + EscapePass(s[1..], openDone, true)
    else [s[0]] + EscapePass(s[1..], openDone, closeDone)
  }

  /** The text a pattern matches when it is made only of plain characters and
      backslash-escaped metacharacters; `None` for any other pattern. */
  function LiteralText(key: string): Option<string>
    decreases |key|
  {
    if key == [] then Some([])
    else if key[0] == '\\' then
      if |key| >= 2 && IsRegexMeta(key[1]) then Prepend([key[1]], LiteralText(key[2..])) else None
    else if IsRegexMeta(key[0]) then None
    else Prepend([key[0]], LiteralText(key[1..]))
  }

  function Prepend(t: string, o: Option<string>): Option<string>
  {
    match o
    case Some(u) => Some(t + u)
    case None => None
  }

  // ---------------------------------------------------------------------------
  // ReplaceFirst
  // ---------------------------------------------------------------------------

  /** A string without `c` is left alone. */
  lemma {:induction false} ReplaceWithoutChar(s: string, c: char, rep: string)
    requires c !in s
    ensures ReplaceFirst(s, c, rep) == s
    decreases |s|
  {
    if s != [] {
      assert c !in s[1..];
      ReplaceWithoutChar(s[1..], c, rep);
      assert [s[0]] + s[1..] == s;
    }
  }

  /** Only one character is replaced, if any. */
  lemma {:induction false} ReplaceFirstLength(s: string, c: char, rep: string)
    ensures |ReplaceFirst(s, c, rep)| == |s| + (if c in s then |rep| - 1 else 0)
    decreases |s|
  {
    if s != [] && s[0] != c {
      assert c in s <==> c in s[1..];
      ReplaceFirstLength(s[1..], c, rep);
    }
  }

  /** The first occurrence of `c`, at `i`, is the one replaced. */
  lemma {:induction false} ReplaceFirstAt(s: string, c: char, rep: string, i: nat)
    requires i < |s| && s[i] == c && c !in s[..i]
    ensures ReplaceFirst(s, c, rep) == s[..i] + rep + s[i + 1..]
    decreases i
  {
    if i > 0 {
      var t := s[1..];
      assert s[0] in s[..i];
      assert t[..i - 1] == s[1..i];
      ReplaceFirstAt(t, c, rep, i - 1);
      assert t[i..] == s[i + 1..];
      assert [s[0]] + s[1..i] == s[..i];
    }
  }

  /** `ReplaceFirst` replaces the occurrence at `s.indexOf(c)`, and leaves a
      string without `c` alone. */
  lemma {:induction false} ReplaceFirstAtIndex(s: string, c: char, rep: string)
    ensures IndexOf(s, c) == -1 ==> ReplaceFirst(s, c, rep) == s
    ensures IndexOf(s, c) >= 0 ==>
      var i := IndexOf(s, c); ReplaceFirst(s, c, rep) == s[..i] + rep + s[i + 1..]
  {
    var i := IndexOf(s, c);
    if i == -1 {
      ReplaceWithoutChar(s, c, rep);
    } else {
      ReplaceFirstAt(s, c, rep, i);
    }
  }

  /** Once `[` is escaped, the pass only escapes the first `]`. */
  lemma {:induction false} PassAfterOpen(s: string)
    ensures EscapePass(s, true, false) == ReplaceFirst(s, ']', "\\]")
    decreases |s|
  {
    if s != [] {
      PassAfterOpen(s[1..]);
      if s[0] == ']' {
        PassDone(s[1..]);
      }
    }
  }

  /** Once `]` is escaped, the pass only escapes the first `[`. */
  lemma {:induction false} PassAfterClose(s: string)
    ensures EscapePass(s, false, true) == ReplaceFirst(s, '[', "\\[")
    decreases |s|
  {
    if s != [] {
      PassAfterClose(s[1..]);
      if s[0] == '[' {
        PassDone(s[1..]);
      }
    }
  }

  /** With both brackets escaped, the pass copies the rest. */
  lemma {:induction false} PassDone(s: string)
    ensures EscapePass(s, true, true) == s
    decreases |s|
  {
    if s != [] {
      PassDone(s[1..]);
      assert [s[0]] + s[1..] == s;
    }
  }

  /** The two non-global replaces of line 108 are the one-pass escape. */
  lemma {:induction false} EscapeKeyIsPass(s: string)
    ensures EscapeKey(s) == EscapePass(s, false, false)
    decreases |s|
  {
    if s != [] {
      if s[0] == '[' {
        var t := "\\[" + s[1..];
        assert t[0] == '\\' && t[1..] == "[" + s[1..];
        var u := "[" + s[1..];
        assert u[0] == '[' && u[1..] == s[1..];
        assert ReplaceFirst(s, '[', "\\[") == t;
        assert ReplaceFirst(u, ']', "\\]") == "[" + ReplaceFirst(s[1..], ']', "\\]");
        assert ReplaceFirst(t, ']', "\\]") == "\\" + ReplaceFirst(u, ']', "\\]");
        PassAfterOpen(s[1..]);
      } else if s[0] == ']' {
        var r := ReplaceFirst(s[1..], '[', "\\[");
        assert ReplaceFirst(s, '[', "\\[") == [']'] + r;
        assert ([']'] + r)[0] == ']' && ([']'] + r)[1..] == r;
        PassAfterClose(s[1..]);
      } else {
        EscapeKeyIsPass(s[1..]);
        var r := ReplaceFirst(s[1..], '[', "\\[");
        assert ReplaceFirst(s, '[', "\\[") == [s[0]] + r;
        assert ([s[0]] + r)[0] == s[0] && ([s[0]] + r)[1..] == r;
      }
    }
  }

  // ---------------------------------------------------------------------------
  // The escaped key reads as the name
  // ---------------------------------------------------------------------------

  /** No metacharacter other than brackets. */
  predicate OnlyBracketMeta(s: string)
  {
    forall i :: 0 <= i < |s| ==> IsBracket(s[i]) || !IsRegexMeta(s[i])
  }

  lemma HeadTail(s: string)
    requires s != []
    ensures multiset(s) == multiset{s[0]} + multiset(s[1..])
    ensures OnlyBracketMeta(s) ==> OnlyBracketMeta(s[1..])
  {
    assert s == [s[0]] + s[1..];
    assert forall k :: 0 <= k < |s| - 1 ==> s[1..][k] == s[k + 1];
  }

  /** The escape line 108 evidently aims at: a backslash before every
      bracket, as a global replace would give. */
  function EscapeBrackets(s: string): string
  {
    if s == [] then []
    else (if IsBracket(s[0]) then ['\\', s[0]] else [s[0]]) + EscapeBrackets(s[1..])
  }

  /** Escaping every bracket turns any name without other metacharacters into
      a literal pattern for exactly that name. */
  lemma {:induction false} BracketsAreLiteral(s: string)
    requires OnlyBracketMeta(s)
    ensures LiteralText(EscapeBrackets(s)) == Some(s)
    decreases |s|
  {
    if s != [] {
      HeadTail(s);
      var x := s[0];
      BracketsAreLiteral(s[1..]);
      var rest := EscapeBrackets(s[1..]);
      if IsBracket(x) {
        var k := ['\\', x] + rest;
        assert k[0] == '\\' && k[1] == x && k[2..] == rest;
      } else {
        var k := [x] + rest;
        assert k[0] == x && k[1..] == rest;
      }
      assert [x] + s[1..] == s;
    }
  }

  /** The one-pass escape agrees with escaping every bracket as long as no
      bracket it has already escaped comes back. */
  lemma {:induction false} PassIsBrackets(s: string, openDone: bool, closeDone: bool)
    requires multiset(s)['['] <= (if openDone then 0 else 1)
    requires multiset(s)[']'] <= (if closeDone then 0 else 1)
    ensures EscapePass(s, openDone, closeDone) == EscapeBrackets(s)
    decreases |s|
  {
    if s != [] {
      HeadTail(s);
      var x := s[0];
      if x == '[' && !openDone {
        PassIsBrackets(s[1..], true, closeDone);
      } else if x == ']' && !closeDone {
        PassIsBrackets(s[1..], openDone, true);
      } else {
        PassIsBrackets(s[1..], openDone, closeDone);
      }
    }
  }

  /** With at most one `[` and one `]`, the two non-global replaces of line
      108 escape every bracket. */
  lemma EscapeKeyAgrees(name: string)
    requires multiset(name)['['] <= 1 && multiset(name)[']'] <= 1
    ensures EscapeKey(name) == EscapeBrackets(name)
  {
    EscapeKeyIsPass(name);
    PassIsBrackets(name, false, false);
  }

  /** With at most one `[` and one `]` and no other metacharacter, the key of
      line 108 is a literal pattern for exactly the name. */
  lemma EscapedNameIsLiteral(name: string)
    requires RegexSafe(name)
    ensures LiteralText(EscapeKey(name)) == Some(name)
  {
    EscapeKeyAgrees(name);
    BracketsAreLiteral(name);
  }

  /** The key line 108 builds for `a[0][1]`. */
  lemma TwoPairsKey()
    ensures EscapeKey("a[0][1]") == "a\\[0\\][1]"
  {
    var name, once := "a[0][1]", "a\\[0][1]";
    assert name[1] == '[' && name[..1] == "a";
    ReplaceFirstAt(name, '[', "\\[", 1);
    assert once[4] == ']' && once[..4] == "a\\[0";
    ReplaceFirstAt(once, ']', "\\]", 4);
  }

  /** Only the first `[` is escaped, so a name with two bracket pairs is not a
      literal pattern: its second `[1]` stays a character class. */
  lemma OnlyFirstBracketEscaped()
    ensures LiteralText(EscapeKey("a[0][1]")) == None
  {
    var key := "a\\[0\\][1]";
    TwoPairsKey();
    assert LiteralText(key[6..]) == None;
    assert LiteralText(key[4..]) == None;
    assert LiteralText(key[3..]) == None;
    assert LiteralText(key[1..]) == None;
  }
}

=== FILE: loader.dfy ===
/** The pure part of `lib.loadData` (lib.js lines 138-178): which callback name
    a request uses, how the `callback=` parameter is spliced into the URL, and
    what happens to the global callback registry before and after the script
    loads. The script element itself, its charset and its events are host
    plumbing; the load is one abstract "completed" transition.

    The registry stands for the properties of `window` that hold functions;
    `F` is the type of the functions stored in it. */
module Loader {
  import opened Wrappers
  import opened JsString
  import opened KeyEscape
  import opened UrlParam

  /** The parameter a JSONP endpoint reads its callback name from. */
  const CallbackParam: string := "callback"

  predicate IsLowerLetter(c: char)
  {
    'a' <= c <= 'z'
  }

  /** A name of lower-case letters has no metacharacter, no bracket and no `=`. */
  lemma LowerCaseNameIsSafe(s: string)
    requires forall i :: 0 <= i < |s| ==> IsLowerLetter(s[i])
    ensures RegexSafe(s) && '=' !in s
  {
    assert '[' !in s && ']' !in s;
    assert multiset(s)['['] == 0 && multiset(s)[']'] == 0;
  }

  lemma CallbackParamIsSafe()
    ensures RegexSafe(CallbackParam) && '=' !in CallbackParam
  {
    LowerCaseNameIsSafe(CallbackParam);
  }

  /** `lib.getParam(url, 'callback')` (line 141). */
  function UrlCallback(url: string): (r: Option<string>)
    ensures r.None? <==> forall p :: !MatchesAt(url, CallbackParam, p)
    ensures r.Some? ==> exists p :: LeftmostMatch(url, CallbackParam, p) && IsValueAt(url, p + |CallbackParam| + 2, r.value)
  {
    CallbackParamIsSafe();
    GetParam(url, CallbackParam)
  }

  /** What one call prepares before the script element is created.
      `urlName` is the `callback` value found in the URL (`cbName`), `name` the
      effective callback name, `fragment` the `callback=<name>` text spliced
      into the URL (empty when none is built), `src` the URL finally loaded. */
  datatype Request<F> = Request(
    src: string,
    urlName: Option<string>,
    name: Option<string>,
    fragment: string,
    fn: Option<F>)

  /** The global namespace as far as the loader touches it, and whether `fn`
      has been called directly by the load handler. */
  datatype Host<F> = Host(registry: map<string, F>, fnCalled: bool)

  /** A request in flight: what was prepared and the host right before load. */
  datatype Pending<F> = Pending(req: Request<F>, host: Host<F>)

  /** The property key `window[fnName]` uses: an undefined name is the key
      "undefined". */
  function Key(name: Option<string>): string
  {
    match name
    case Some(s) => s
    case None => "undefined"
  }

  /** Line 147: the URL with `cb` spliced in right after the first `?`, or
      appended after a new `?` when there is none. */
  function Splice(url: string, cb: string): (src: string)
    ensures '?' in url ==>
      var pos := IndexOf(url, '?') + 1;
      src == url[..pos] + cb + "&" + url[pos..]
    ensures '?' !in url ==> src == url + "?" + cb
  {
    var pos := IndexOf(url, '?') + 1;
    if pos == 0 then url + "?" + cb
    else
      NegativeEndIsPrefix(url, pos);
      SubstringFromIsSuffix(url, pos);
      Substring(url, pos, -1) + cb + "&" + SubstringFrom(url, pos)
  }

  /** Lines 141-147: the callback name and the URL actually loaded. A URL that
      already carries a non-empty `callback` wins over `fnName`; otherwise a
      truthy `fnName` is spliced in as `callback=<name>&` right after the
      first `?`, or appended as `?callback=<name>` when there is no `?`. */
  function Prepare<F>(url: string, fn: Option<F>, fnName: Option<string>): (req: Request<F>)
    ensures req.fn == fn
    ensures req.urlName == UrlCallback(url)
    ensures Truthy(req.urlName) ==> req.name == req.urlName
    ensures !Truthy(req.urlName) ==> req.name == fnName
    ensures req.fragment != [] <==> !Truthy(req.urlName) && Truthy(fnName)
    ensures req.fragment != [] ==> req.fragment == CallbackParam + "=" + fnName.value
    ensures req.fragment == [] ==> req.src == url
    ensures req.fragment != [] ==> req.src == Splice(url, req.fragment)
  {
    var cbName := UrlCallback(url);
    var name := if Truthy(cbName) then cbName else fnName;
    var cb := if Truthy(cbName) || !Truthy(name) then "" else CallbackParam + "=" + name.value;
    Request(if cb == "" then url else Splice(url, cb), cbName, name, cb, fn)
  }

  /** Line 149: `fn` is stored under the effective name when both exist.
      Nothing is stored without a function or a name, and no entry under
      another name changes. */
  function Register<F>(req: Request<F>, registry: map<string, F>): (reg: map<string, F>)
    ensures req.fn.Some? && Truthy(req.name) ==> req.name.value in reg && reg[req.name.value] == req.fn.value
    ensures req.fn.None? || !Truthy(req.name) ==> reg == registry
    ensures reg.Keys <= registry.Keys + {Key(req.name)}
    ensures forall k :: k in registry && k != Key(req.name) ==> k in reg && reg[k] == registry[k]
  {
    if req.fn.Some? && Truthy(req.name) then registry[req.name.value := req.fn.value] else registry
  }

  /** Lines 138-157: prepare the request and register the callback; the
      script element is then handed to the host. When `fn` is a function and
      the URL or `fnName` names a callback, `fn` is stored under that name;
      otherwise the registry is left alone. No other entry changes, and `fn`
      has not been called yet. */
  function LoadData<F>(url: string, fn: Option<F>, fnName: Option<string>, registry: map<string, F>): (p: Pending<F>)
    ensures !p.host.fnCalled
    ensures p.req.fn == fn
    ensures fn.Some? && (Truthy(UrlCallback(url)) || Truthy(fnName)) ==>
      && Truthy(p.req.name)
      && p.req.name.value in p.host.registry
      && p.host.registry[p.req.name.value] == fn.value
    ensures fn.None? || (!Truthy(UrlCallback(url)) && !Truthy(fnName)) ==> p.host.registry == registry
    ensures p.host.registry.Keys <= registry.Keys + {Key(p.req.name)}
    ensures forall k :: k in registry && k != Key(p.req.name) ==> k in p.host.registry && p.host.registry[k] == registry[k]
  {
    var req := Prepare(url, fn, fnName);
    Pending(req, Host(Register(req, registry), false))
  }

  /** The registry clean-up of lines 170-177: when the URL carried no callback,
      a registered entry under the effective name is removed. */
  function CleanUp<F>(req: Request<F>, registry: map<string, F>): (reg: map<string, F>)
    ensures !Truthy(req.urlName) ==> reg == registry - {Key(req.name)}
    ensures Truthy(req.urlName) ==> reg == registry
  {
    if !Truthy(req.urlName) && Key(req.name) in registry then registry - {Key(req.name)} else registry
  }

  /** Lines 166-177 as written: `fn` is called directly whenever no fragment
      was built, which includes a URL that brings its own `callback`. A
      request that spliced in a fragment is never called directly, and only
      the entry under the effective name can go. */
  function OnLoadAsWritten<F>(req: Request<F>, host: Host<F>): (h: Host<F>)
    ensures host.fnCalled ==> h.fnCalled
    ensures h.fnCalled && !host.fnCalled ==> req.fn.Some?
    ensures req.fragment != [] ==> h.fnCalled == host.fnCalled
    ensures h.registry.Keys <= host.registry.Keys
    ensures forall k :: k in h.registry ==> h.registry[k] == host.registry[k]
    ensures host.registry.Keys - h.registry.Keys <= {Key(req.name)}
  {
    Host(CleanUp(req, host.registry), host.fnCalled || (req.fn.Some? && req.fragment == ""))
  }

  /** Lines 166-177 as the comments there and at lines 130-132 describe them:
      `fn` is called directly only when neither the URL nor `fnName` gives a
      callback name. The registry is cleaned up as by the handler as written. */
  function OnLoad<F>(req: Request<F>, host: Host<F>): (h: Host<F>)
    ensures host.fnCalled ==> h.fnCalled
    ensures h.fnCalled && !host.fnCalled ==> req.fn.Some?
    ensures Truthy(req.name) ==> h.fnCalled == host.fnCalled
    ensures h.registry == OnLoadAsWritten(req, host).registry
  {
    Host(CleanUp(req, host.registry), host.fnCalled || (req.fn.Some? && !Truthy(req.name)))
  }

  /** The load completes and the handler of lines 159-178 runs once, as
      written. It only ever removes entries, and a direct call, once made,
      stays made. */
  function Complete<F>(p: Pending<F>): (h: Host<F>)
    ensures h.registry.Keys <= p.host.registry.Keys
    ensures forall k :: k in h.registry ==> h.registry[k] == p.host.registry[k]
    ensures p.host.fnCalled ==> h.fnCalled
  {
    OnLoadAsWritten(p.req, p.host)
  }

  /** The same completion with the corrected handler, `OnLoad`: the registry
      ends up as with the handler as written; only the direct call differs. */
  function CompleteCorrected<F>(p: Pending<F>): (h: Host<F>)
    ensures h.registry == Complete(p).registry
    ensures p.host.fnCalled ==> h.fnCalled
  {
    OnLoad(p.req, p.host)
  }

  // ---------------------------------------------------------------------------
  // Properties
  // ---------------------------------------------------------------------------

  /** A match inside a prefix is a match of the whole string. */
  lemma PrefixMatch(url: string, name: string, k: int, q: int)
    requires 0 <= k <= |url| && MatchesAt(url[..k], name, q)
    ensures MatchesAt(url, name, q)
  {
    assert url[..k][q + 1..q + 1 + |name|] == url[q + 1..q + 1 + |name|];
  }

  /** A `callback=<n>` placed right after a `?` that follows a text without
      any `callback=` is what `getParam` reads back. */
  lemma CallbackAfterMark(pre: string, n: string, tail: string)
    requires forall q :: !MatchesAt(pre, CallbackParam, q)
    requires '&' !in n && '#' !in n
    requires tail == [] || tail[0] == '&'
    ensures UrlCallback(pre + "?" + (CallbackParam + "=" + n) + tail) == Some(n)
  {
    CallbackParamIsSafe();
    assert pre + "?" + (CallbackParam + "=" + n) + tail == pre + ['?'] + CallbackParam + "=" + n + tail;
    InsertedIsRead(pre, '?', CallbackParam, n, tail);
  }

  /** Splicing `callback=<n>` into a URL without any `callback=` makes
      `getParam` read `n` back, whether it lands after the first `?` or after
      a new `?` at the end. */
  lemma SpliceIsRead(url: string, n: string)
    requires forall q :: !MatchesAt(url, CallbackParam, q)
    requires '&' !in n && '#' !in n
    ensures UrlCallback(Splice(url, CallbackParam + "=" + n)) == Some(n)
  {
    var frag := CallbackParam + "=" + n;
    if '?' in url {
      var pos := IndexOf(url, '?') + 1;
      var pre := url[..pos - 1];
      forall q ensures !MatchesAt(pre, CallbackParam, q) {
        if MatchesAt(pre, CallbackParam, q) { PrefixMatch(url, CallbackParam, pos - 1, q); }
      }
      assert url[..pos] == pre + "?";
      assert Splice(url, frag) == pre + "?" + frag + ("&" + url[pos..]);
      CallbackAfterMark(pre, n, "&" + url[pos..]);
    } else {
      assert Splice(url, frag) == url + "?" + frag + [];
      CallbackAfterMark(url, n, []);
    }
  }

  /** The URL that is loaded carries the effective callback name as its
      `callback` parameter, whenever there is a name and the original URL had
      no `callback` at all or a non-empty one, and the name holds no `&` or
      `#`. */
  lemma SourceCarriesCallback<F>(url: string, fn: Option<F>, fnName: Option<string>)
    requires UrlCallback(url).None? || Truthy(UrlCallback(url))
    requires Truthy(fnName) ==> '&' !in fnName.value && '#' !in fnName.value
    requires Truthy(Prepare(url, fn, fnName).name)
    ensures UrlCallback(Prepare(url, fn, fnName).src) == Prepare(url, fn, fnName).name
  {
    var req := Prepare(url, fn, fnName);
    if !Truthy(req.urlName) {
      assert req.src == Splice(url, CallbackParam + "=" + fnName.value);
      SpliceIsRead(url, fnName.value);
    }
  }

  /** A callback name supplied in the URL wins over `fnName`, and after the
      load the callback stays registered under it: the caller manages that
      JSONP name. As written, `fn` is also called directly after the load;
      the corrected handler does not call it. */
  lemma UrlCallbackStaysRegistered<F>(url: string, f: F, fnName: Option<string>, registry: map<string, F>)
    requires Truthy(UrlCallback(url))
    ensures var p := LoadData(url, Some(f), fnName, registry);
      var name := UrlCallback(url).value;
      && p.req.name == Some(name)
      && p.req.src == url
      && Complete(p).registry == registry[name := f]
      && Complete(p).fnCalled
      && !CompleteCorrected(p).fnCalled
  {
  }

  /** Without a URL callback, a named callback is registered for the request
      and removed again after the load; no other entry changes. */
  lemma JsonpEntryRemovedAfterLoad<F>(url: string, f: F, name: string, registry: map<string, F>)
    requires !Truthy(UrlCallback(url)) && name != ""
    ensures var p := LoadData(url, Some(f), Some(name), registry);
      && p.req.fragment == CallbackParam + "=" + name
      && p.host.registry == registry[name := f]
      && Complete(p).registry == registry - {name}
      && !Complete(p).fnCalled
  {
    var req := Prepare(url, Some(f), Some(name));
    assert req.name == Some(name) && req.fragment != [];
    var reg := Register(req, registry);
    assert reg == registry[name := f];
    assert CleanUp(req, reg) == reg - {name};
    assert reg - {name} == registry - {name};
  }

  /** With `fn` alone (no `fnName`, no URL callback) nothing is registered, the
      URL is loaded as given and `fn` is called directly after the load. */
  lemma PlainModeCallsFn<F>(url: string, f: F, fnName: Option<string>, registry: map<string, F>)
    requires !Truthy(UrlCallback(url)) && !Truthy(fnName)
    ensures var p := LoadData(url, Some(f), fnName, registry);
      && p.req.src == url
      && p.host.registry == registry
      && Complete(p).fnCalled
      && Complete(p).registry == registry - {Key(fnName)}
  {
  }

  /** With the corrected handler, the direct call after the load happens
      exactly when `fn` is a function and neither the URL nor `fnName` names a
      callback; in particular only when no fragment was built. */
  lemma DirectCallOnlyInPlainMode<F>(url: string, fn: Option<F>, fnName: Option<string>, registry: map<string, F>)
    ensures var p := LoadData(url, fn, fnName, registry);
      && (CompleteCorrected(p).fnCalled <==> fn.Some? && !Truthy(UrlCallback(url)) && !Truthy(fnName))
      && (CompleteCorrected(p).fnCalled ==> p.req.fragment == [])
  {
  }

  /** As written, the direct call happens exactly when no fragment was built. */
  lemma DirectCallAsWritten<F>(url: string, fn: Option<F>, fnName: Option<string>, registry: map<string, F>)
    ensures var p := LoadData(url, fn, fnName, registry);
      Complete(p).fnCalled <==> fn.Some? && p.req.fragment == []
  {
  }

  lemma ExistingCallbackFound()
    ensures UrlCallback("api?callback=existing") == Some("existing")
  {
    assert "api?callback=existing" == "api" + "?" + (CallbackParam + "=" + "existing") + [];
    CallbackAfterMark("api", "existing", []);
  }

  /** As written, a URL that brings `callback=existing` gets `fn` registered
      under "existing" (so the JSONP response calls it with the data) and also
      called directly, without data, when the script has loaded. */
  lemma UrlCallbackAlsoCalledDirectly<F>(f: F, registry: map<string, F>)
    ensures var p := LoadData("api?callback=existing", Some(f), Some("ignored"), registry);
      && p.req.name == Some("existing")
      && p.host.registry == registry["existing" := f]
      && Complete(p).fnCalled
  {
    ExistingCallbackFound();
  }

  /** `loadData("api?callback=existing", fn, "ignored")` uses "existing" and
      keeps it registered after the load. */
  lemma ExistingCallbackExample<F>(f: F, registry: map<string, F>)
    ensures var p := LoadData("api?callback=existing", Some(f), Some("ignored"), registry);
      && p.req.name == Some("existing")
      && "existing" in Complete(p).registry
      && Complete(p).registry["existing"] == f
  {
    ExistingCallbackFound();
    UrlCallbackStaysRegistered("api?callback=existing", f, Some("ignored"), registry);
  }

  /** `loadData("api", fn)` registers nothing and calls `fn` after the load. */
  lemma PlainExample<F>(f: F, registry: map<string, F>)
    ensures var p := LoadData("api", Some(f), None, registry);
      && p.req.src == "api"
      && p.host.registry == registry
      && Complete(p).fnCalled
  {
    assert UrlCallback("api") == None;
    PlainModeCallsFn("api", f, None, registry);
  }
}

=== FILE: marquee.dfy ===
/** The step machine behind `lib.initMarquee` (lib.js lines 187-221): a list of
    `count` children, each `height` pixels tall, is doubled and scrolled upwards
    one pixel per tick, dwelling whenever a child boundary is reached.

    Timers become explicit phases: `Dwelling` is "`start` is scheduled by
    `setTimeout`", `Moving` is "`move` runs on the interval". One tick runs the
    callback the current phase has scheduled. Every child is `height` tall, so
    after the doubling of line 194 half the scroll height is `count * height`. */
module Marquee {
  import opened Wrappers

  datatype Phase = Dwelling | Moving

  /** One marquee: the child height and count captured at set-up, the scroll
      offset (`scrollTop`), the hover flag and the phase. */
  datatype Marquee = Marquee(height: nat, count: nat, offset: nat, paused: bool, phase: Phase)

  /** `k` children of height `h`, stacked: `k * h` (see `MulIsProduct`). */
  function Mul(k: nat, h: nat): nat
  {
    if k == 0 then 0 else Mul(k - 1, h) + h
  }

  /** The offset within a child: `x % h` for a non-negative `x`, the only case
      `scrollTop` takes (see `RemIsMod`). */
  function Rem(x: nat, h: nat): (r: nat)
    requires h > 0
    ensures r < h
    decreases x
  {
    if x < h then x else Rem(x - h, h)
  }

  /** The number of whole children above offset `x`: `x / h`. */
  function Quot(x: nat, h: nat): nat
    requires h > 0
    decreases x
  {
    if x < h then 0 else Quot(x - h, h) + 1
  }

  /** `elm.scrollHeight / 2` once the content has been doubled. */
  function Half(m: Marquee): nat
  {
    Mul(m.count, m.height)
  }

  /** What every reachable marquee satisfies: the offset stays inside the
      first copy of the content, and a dwell only ever happens on a child
      boundary. */
  predicate Inv(m: Marquee)
  {
    && m.height > 0
    && m.offset < Half(m)
    && (m.phase == Dwelling ==> Rem(m.offset, m.height) == 0)
  }

  /** Lines 188-205: nothing happens without an element or with fewer than
      two children; otherwise the marquee starts at the top, unpaused, with
      `start` scheduled. `children` is `None` for a missing element. */
  function Init(children: Option<nat>, height: nat): (r: Option<Marquee>)
    requires children.Some? && children.value >= 2 ==> height > 0
    ensures r.None? <==> children.None? || children.value < 2
    ensures r.Some? ==> Inv(r.value)
    ensures r.Some? ==> r.value.offset == 0 && r.value.phase == Dwelling && !r.value.paused
    ensures r.Some? ==> r.value.count == children.value && r.value.height == height
  {
    if children.None? || children.value < 2 then None
    else Some(Marquee(height, children.value, 0, false, Dwelling))
  }

  /** Lines 197-203: hovering sets the pause flag, leaving sets it back. The
      invariant does not depend on the flag, so hovering keeps it and cannot
      restore it. */
  function Hover(m: Marquee, over: bool): (r: Marquee)
    ensures r.paused == over
    ensures r.(paused := m.paused) == m
    ensures Inv(r) <==> Inv(m)
  {
    m.(paused := over)
  }

  /** Lines 207-210: `start` switches to moving and, unless paused, scrolls
      one pixel; there is no wrap check here. From a boundary inside the first
      copy, with children at least two pixels tall, that pixel stays inside
      the first copy and leaves the boundary, so the next `move` scrolls on. */
  function Start(m: Marquee): (r: Marquee)
    ensures r.phase == Moving
    ensures r.offset == if m.paused then m.offset else m.offset + 1
    ensures r.(phase := m.phase, offset := m.offset) == m
    ensures Inv(m) && m.phase == Dwelling && m.height >= 2 ==> Inv(r)
    ensures m.height >= 2 && Rem(m.offset, m.height) == 0 && !m.paused ==> Rem(r.offset, m.height) == 1
  {
    StepOffBoundary(m);
    m.(phase := Moving, offset := if m.paused then m.offset else m.offset + 1)
  }

  /** One pixel past a boundary inside the first copy is still inside it, and
      one pixel into the next child. */
  lemma StepOffBoundary(m: Marquee)
    ensures Inv(m) && m.phase == Dwelling ==> m.offset + m.height <= Half(m)
    ensures m.height >= 2 && Rem(m.offset, m.height) == 0 ==> Rem(m.offset + 1, m.height) == 1
  {
    if m.height > 0 && Rem(m.offset, m.height) == 0 {
      QuotRem(m.offset, m.height);
      RemAfterChildren(Quot(m.offset, m.height), m.height, 0);
      if m.height >= 2 {
        RemAfterChildren(Quot(m.offset, m.height), m.height, 1);
      }
      if Inv(m) {
        BoundaryBelowHalf(Quot(m.offset, m.height), m.height, m.count);
      }
    }
  }

  /** Lines 212-220: off a child boundary `move` scrolls one pixel and wraps
      to the top once the first copy is passed; on a boundary it stops the
      interval and schedules the next `start`. The pause flag is not read. */
  function Move(m: Marquee): (r: Marquee)
    requires m.height > 0
    ensures Rem(m.offset, m.height) != 0 ==> r == m.(offset := r.offset)
    ensures Rem(m.offset, m.height) != 0 ==> r.offset == m.offset + 1 || r.offset == 0
    ensures Rem(m.offset, m.height) == 0 ==> r == m.(phase := Dwelling)
  {
    if Rem(m.offset, m.height) != 0 then
      var next := m.offset + 1;
      m.(offset := if next >= Half(m) then 0 else next)
    else
      m.(phase := Dwelling)
  }

  /** The child after child `k`, back to the first after the last. */
  function NextChild(k: nat, n: nat): (r: nat)
    requires k < n
    ensures r < n && r == Rem(k + 1, n)
  {
    if k + 1 == n then 0 else k + 1
  }

  /** One timer callback: whichever of `start` and `move` is scheduled. A
      tick never changes the child height, the child count or the pause flag,
      and after a `start` the marquee is always moving. */
  function Tick(m: Marquee): (r: Marquee)
    requires m.height > 0
    ensures r.height == m.height && r.count == m.count && r.paused == m.paused
    ensures m.phase == Dwelling ==> r.phase == Moving
  {
    match m.phase
    case Dwelling => Start(m)
    case Moving => Move(m)
  }

  /** `t` timer callbacks in a row, without hover events in between. */
  function Ticks(m: Marquee, t: nat): (r: Marquee)
    requires m.height > 0
    ensures r.height == m.height && r.count == m.count && r.paused == m.paused
    decreases t
  {
    if t == 0 then m else Ticks(Tick(m), t - 1)
  }

  // ---------------------------------------------------------------------------
  // Arithmetic on child boundaries
  // ---------------------------------------------------------------------------

  lemma {:induction false} MulIsProduct(k: nat, h: nat)
    ensures Mul(k, h) == k * h
    decreases k
  {
    if k > 0 {
      MulIsProduct(k - 1, h);
      assert k * h == (k - 1) * h + h;
    }
  }

  /** `Quot` and `Rem` split an offset into whole children and the rest. */
  lemma {:induction false} QuotRem(x: nat, h: nat)
    requires h > 0
    ensures x == Mul(Quot(x, h), h) + Rem(x, h)
    decreases x
  {
    if x >= h {
      QuotRem(x - h, h);
    }
  }

  lemma MulPos(a: int, h: int)
    requires a >= 1 && h > 0
    ensures a * h >= h
  {
  }

  /** Division with remainder is unique. */
  lemma ModUnique(x: int, h: int, q: int, r: int)
    requires h > 0 && 0 <= r < h && x == q * h + r
    ensures x % h == r && x / h == q
  {
    if q > x / h {
      MulPos(q - x / h, h);
    } else if q < x / h {
      MulPos(x / h - q, h);
    }
  }

  /** On non-negative numbers `Rem` is JavaScript's `%`, and `Quot` is
      `Math.floor(x / h)`, the number of whole children above `x`. */
  lemma RemIsMod(x: nat, h: nat)
    requires h > 0
    ensures Rem(x, h) == x % h && Quot(x, h) == x / h
  {
    QuotRem(x, h);
    MulIsProduct(Quot(x, h), h);
    ModUnique(x, h, Quot(x, h), Rem(x, h));
  }

  /** `k` whole children and `j` more pixels leave `j` pixels into a child. */
  lemma {:induction false} RemAfterChildren(k: nat, h: nat, j: nat)
    requires j < h
    ensures Rem(Mul(k, h) + j, h) == j
    decreases k
  {
    if k > 0 {
      RemAfterChildren(k - 1, h, j);
      assert Mul(k, h) + j - h == Mul(k - 1, h) + j;
    }
  }

  /** More children reach further. */
  lemma {:induction false} MulMonotone(a: nat, b: nat, h: nat)
    requires a <= b
    ensures Mul(a, h) <= Mul(b, h)
    decreases b
  {
    if a < b {
      MulMonotone(a, b - 1, h);
    }
  }

  /** A boundary inside the first copy leaves room for a whole child. */
  lemma BoundaryBelowHalf(q: nat, h: nat, n: nat)
    requires h > 0 && Mul(q, h) < Mul(n, h)
    ensures q + 1 <= n && Mul(q, h) + h <= Mul(n, h)
  {
    if q >= n {
      MulMonotone(n, q, h);
    }
    MulMonotone(q + 1, n, h);
  }

  // ---------------------------------------------------------------------------
  // Properties
  // ---------------------------------------------------------------------------

  /** Off a boundary, a `move` tick advances the offset by one modulo the
      first copy's height. */
  lemma MoveIsSuccessor(m: Marquee)
    requires Inv(m) && Rem(m.offset, m.height) != 0
    ensures Move(m).offset == Rem(m.offset + 1, Half(m))
  {
    if m.offset + 1 == Half(m) {
      assert Rem(m.offset + 1, Half(m)) == Rem(0, Half(m));
    }
  }

  /** The invariant holds after every tick once children are at least two
      pixels tall: a `start` from a boundary inside the first copy cannot
      reach its end (`Start`), and `move` wraps before it. */
  lemma TickPreservesInv(m: Marquee)
    requires Inv(m) && m.height >= 2
    ensures Inv(Tick(m))
  {
  }

  /** ... and so after any number of ticks. Hover events in between keep it
      too, by `Hover`'s contract. */
  lemma {:induction false} TicksPreserveInv(m: Marquee, t: nat)
    requires Inv(m) && m.height >= 2
    ensures Inv(Ticks(m, t))
    decreases t
  {
    if t > 0 {
      TickPreservesInv(m);
      TicksPreserveInv(Tick(m), t - 1);
    }
  }

  /** Ticks compose. */
  lemma {:induction false} TicksAdd(m: Marquee, a: nat, b: nat)
    requires m.height > 0
    ensures Ticks(m, a + b) == Ticks(Ticks(m, a), b)
    decreases a
  {
    if a > 0 {
      TicksAdd(Tick(m), a - 1, b);
    }
  }

  /** One `move` from `j` pixels into child `k`, short of its last pixel,
      scrolls one pixel further. */
  lemma MoveWithinChild(m: Marquee, k: nat, j: nat)
    requires m.phase == Moving && m.height > 0 && k < m.count
    requires 0 < j && j + 1 < m.height && m.offset == Mul(k, m.height) + j
    ensures Tick(m) == m.(offset := m.offset + 1)
  {
    RemAfterChildren(k, m.height, j);
    MulMonotone(k + 1, m.count, m.height);
  }

  /** One `move` from the last pixel of child `k` lands on the next boundary,
      which is the top after the last child. */
  lemma MoveOntoBoundary(m: Marquee, k: nat)
    requires m.phase == Moving && m.height > 1 && k < m.count
    requires m.offset == Mul(k, m.height) + (m.height - 1)
    ensures Tick(m) == m.(offset := Mul(NextChild(k, m.count), m.height))
  {
    var h, n := m.height, m.count;
    RemAfterChildren(k, h, h - 1);
    assert m.offset + 1 == Mul(k + 1, h);
    if k + 1 < n {
      MulMonotone(k + 2, n, h);
    }
  }

  /** Moving from `j` pixels into child `k`, the marquee keeps moving until it
      reaches the next boundary, wrapping to the top after the last child. */
  lemma {:induction false} ClimbToBoundary(m: Marquee, k: nat, j: nat)
    requires m.phase == Moving && m.height > 0 && k < m.count
    requires 0 < j < m.height && m.offset == Mul(k, m.height) + j
    ensures Ticks(m, m.height - j) == m.(offset := Mul(NextChild(k, m.count), m.height))
    ensures forall t :: 0 <= t <= m.height - j ==> Ticks(m, t).phase == Moving
    decreases m.height - j
  {
    var h := m.height;
    var m' := Tick(m);
    assert Ticks(m, 0) == m;
    if j + 1 == h {
      MoveOntoBoundary(m, k);
      assert Ticks(m, 1) == Ticks(m', 0);
    } else {
      MoveWithinChild(m, k, j);
      ClimbToBoundary(m', k, j + 1);
      forall t | 1 <= t <= h - j
        ensures Ticks(m, t) == Ticks(m', t - 1)
      {
      }
    }
  }

  /** An unpaused phase that starts on boundary `k` moves for exactly `height`
      ticks and dwells on the next boundary, `height + 1` ticks later, wrapping
      to the top after the last child. */
  lemma OnePhaseAdvancesOneChild(m: Marquee, k: nat)
    requires m.phase == Dwelling && !m.paused && m.height >= 2 && k < m.count
    requires m.offset == Mul(k, m.height)
    ensures Ticks(m, m.height + 1) == m.(offset := Mul(NextChild(k, m.count), m.height))
    ensures forall t :: 1 <= t <= m.height ==> Ticks(m, t).phase == Moving
  {
    var h := m.height;
    var s := Tick(m);
    assert s.phase == Moving && s.offset == Mul(k, h) + 1;
    ClimbToBoundary(s, k, 1);
    var top := Ticks(s, h - 1);
    var next := NextChild(k, m.count);
    RemAfterChildren(next, h, 0);
    assert Tick(top) == m.(offset := Mul(next, h));
    TicksAdd(s, h - 1, 1);
    assert Ticks(top, 1) == Ticks(Tick(top), 0);
    assert Ticks(m, h + 1) == Ticks(s, h);
    forall t | 1 <= t <= h
      ensures Ticks(m, t).phase == Moving
    {
      assert Ticks(m, t) == Ticks(s, t - 1);
    }
  }

  /** A paused `start` does not scroll, so the following `move` sees the same
      boundary and the marquee dwells where it was. */
  lemma PausedCycleIsNoop(m: Marquee)
    requires m.phase == Dwelling && m.paused && m.height > 0 && Rem(m.offset, m.height) == 0
    ensures Tick(m) == m.(phase := Moving)
    ensures Ticks(m, 2) == m
  {
    assert Ticks(m, 2) == Ticks(Tick(m), 1) == Ticks(Tick(Tick(m)), 0);
  }

  /** `move` runs the same whether or not the mouse is over the marquee:
      hovering only delays the next `start`. */
  lemma MoveIgnoresPause(m: Marquee, over: bool)
    requires m.height > 0
    ensures Move(Hover(m, over)) == Hover(Move(m), over)
  {
  }

  /** With one-pixel children every offset is a boundary, so `move` never
      reaches its wrap check: each cycle `start` adds one pixel and the offset
      runs past the first copy. */
  lemma UnitHeightNeverWraps(m: Marquee)
    requires m.phase == Dwelling && !m.paused && m.height == 1
    ensures Ticks(m, 2) == m.(offset := m.offset + 1)
  {
    assert Ticks(m, 2) == Ticks(Tick(m), 1) == Ticks(Tick(Tick(m)), 0);
  }

  /** Hence the invariant fails for one-pixel children: a marquee on its last
      boundary leaves the first copy after one cycle. */
  lemma UnitHeightLeavesFirstCopy(n: nat)
    requires n >= 2
    ensures var m := Marquee(1, n, n - 1, false, Dwelling);
      Inv(m) && !Inv(Ticks(m, 2))
  {
    MulIsProduct(n, 1);
    MulIsProduct(n - 1, 1);
    RemAfterChildren(n - 1, 1, 0);
    UnitHeightNeverWraps(Marquee(1, n, n - 1, false, Dwelling));
  }
}

=== FILE: url_param.dfy ===
/** The URL parameter codec of lib.js: `getParam` and `addParam`.

    `getParam` builds the regular expression `[\?&#]<key>=([^&#]*)` and returns
    the capture of its leftmost match. When the key is the name with every
    bracket escaped (`EscapeBrackets`) and the name has no other
    metacharacter, the key denotes the literal name (`BracketsAreLiteral`), so
    the regular expression matches exactly where `MatchesAt` holds and the
    model is a plain leftmost scan over the string. lib.js escapes only the
    first `[` and the first `]`; for names with at most one of each that is the
    same key (`EscapeKeyAgrees`), and only such names (`RegexSafe`) are
    modelled. */
module UrlParam {
  import opened Wrappers
  import opened JsString
  import opened KeyEscape

  // ---------------------------------------------------------------------------
  // getParam (lib.js lines 105-112)
  // ---------------------------------------------------------------------------

  predicate IsDelim(c: char)
  {
    c == '?' || c == '&' || c == '#'
  }

  /** `url` has `name=` right after a `?`, `&` or `#` at position `p`. */
  predicate MatchesAt(url: string, name: string, p: int)
  {
    && 0 <= p
    && p + |name| + 2 <= |url|
    && IsDelim(url[p])
    && url[p + 1..p + 1 + |name|] == name
    && url[p + 1 + |name|] == '='
  }

  /** `p` is the leftmost match position. */
  predicate LeftmostMatch(url: string, name: string, p: int)
  {
    MatchesAt(url, name, p) && forall q :: 0 <= q < p ==> !MatchesAt(url, name, q)
  }

  /** `v` is the capture `([^&#]*)` at `j`: the longest run without `&` or `#`. */
  predicate IsValueAt(s: string, j: int, v: string)
  {
    && 0 <= j
    && j + |v| <= |s|
    && s[j..j + |v|] == v
    && '&' !in v && '#' !in v
    && (j + |v| == |s| || s[j + |v|] == '&' || s[j + |v|] == '#')
  }

  /** The leftmost match at or after `p`. */
  function FirstMatchFrom(url: string, name: string, p: nat): (r: Option<nat>)
    decreases |url| - p
    ensures r.Some? ==> p <= r.value && MatchesAt(url, name, r.value)
    ensures r.Some? ==> forall q :: p <= q < r.value ==> !MatchesAt(url, name, q)
    ensures r.None? ==> forall q :: p <= q ==> !MatchesAt(url, name, q)
  {
    if p + |name| + 2 > |url| then None
    else if MatchesAt(url, name, p) then Some(p)
    else FirstMatchFrom(url, name, p + 1)
  }

  /** The greedy capture `[^&#]*` starting at `j`. */
  function ValueFrom(s: string, j: nat): (v: string)
    requires j <= |s|
    decreases |s| - j
    ensures IsValueAt(s, j, v)
  {
    if j == |s| || s[j] == '&' || s[j] == '#' then []
    else
      var rest := ValueFrom(s, j + 1);
      assert s[j..j + 1 + |rest|] == [s[j]] + s[j + 1..j + 1 + |rest|];
      [s[j]] + rest
  }

  /** The capture at a position is unique. */
  lemma ValueUnique(s: string, j: int, v: string, w: string)
    requires IsValueAt(s, j, v) && IsValueAt(s, j, w)
    ensures v == w
  {
    assert |v| == |w|;
  }

  /** `lib.getParam(url, name)`: `None` (undefined) for an empty name or when no
      `?`, `&` or `#` is followed by `name=`; otherwise the text after the
      leftmost such occurrence up to the next `&`, `#` or the end. For the
      names accepted here the key of line 108 is a literal pattern for the
      name (`EscapedNameIsLiteral`), so the scan is what the regular
      expression does. */
  function GetParam(url: string, name: string): (r: Option<string>)
    requires RegexSafe(name)
    ensures r.None? <==> name == [] || forall p :: !MatchesAt(url, name, p)
    ensures r.Some? ==> exists p :: LeftmostMatch(url, name, p) && IsValueAt(url, p + |name| + 2, r.value)
  {
    if name == [] then None
    else
      match FirstMatchFrom(url, name, 0)
      case None => None
      case Some(p) =>
        assert LeftmostMatch(url, name, p);
        Some(ValueFrom(url, p + |name| + 2))
  }

  /** The scan from `i` stops at the first match at or after `i`. */
  lemma {:induction false} ScanFindsMatch(url: string, name: string, i: nat, p: nat)
    requires i <= p && MatchesAt(url, name, p)
    requires forall q :: i <= q < p ==> !MatchesAt(url, name, q)
    ensures FirstMatchFrom(url, name, i) == Some(p)
    decreases p - i
  {
    if i < p {
      assert !MatchesAt(url, name, i);
      ScanFindsMatch(url, name, i + 1, p);
    }
  }

  /** The leftmost match pins down the result of `GetParam`. */
  lemma GetParamAt(url: string, name: string, p: int, v: string)
    requires RegexSafe(name) && name != []
    requires LeftmostMatch(url, name, p) && IsValueAt(url, p + |name| + 2, v)
    ensures GetParam(url, name) == Some(v)
  {
    ScanFindsMatch(url, name, 0, p);
    ValueUnique(url, p + |name| + 2, v, ValueFrom(url, p + |name| + 2));
  }

  // ---------------------------------------------------------------------------
  // addParam (lib.js lines 120-127)
  // ---------------------------------------------------------------------------

  /** Where the fragment starts: the first `#`, or the length when there is none. */
  function FragmentStart(url: string): (i: nat)
    ensures i <= |url|
    ensures '#' !in url[..i]
    ensures i < |url| ==> url[i] == '#'
  {
    var k := IndexOf(url, '#');
    if k == -1 then (assert url[..|url|] == url; |url|) else k
  }

  /** The join character: `?` unless the URL (fragment included) already has
      one, as `url.indexOf('?')` decides at line 123. */
  function Separator(url: string): (c: char)
    ensures c == '?' <==> IndexOf(url, '?') == -1
    ensures c == '?' || c == '&'
  {
    if '?' in url then '&' else '?'
  }

  /** `lib.addParam` on a string URL and a defined parameter. */
  function AddParamToString(url: string, param: string): (r: string)
    ensures r == url[..FragmentStart(url)] + [Separator(url)] + param + url[FragmentStart(url)..]
  {
    var qStr := (if IndexOf(url, '?') == -1 then "?" else "&") + param;
    var i := IndexOf(url, '#');
    if i == -1 then
      assert url[..|url|] == url && url[|url|..] == [];
      url + qStr
    else
      NegativeEndIsPrefix(url, i);
      SubstringFromIsSuffix(url, i);
      Substring(url, i, -1) + qStr + SubstringFrom(url, i)
  }

  /** The insertion keeps the prefix and the whole fragment, grows the URL by
      exactly the parameter and one separator, and can be undone by cutting
      that piece out again. */
  lemma AddParamKeepsUrl(url: string, param: string)
    ensures var r := AddParamToString(url, param);
      && |r| == |url| + |param| + 1
      && r[..FragmentStart(url)] == url[..FragmentStart(url)]
      && r[FragmentStart(url) + 1 + |param|..] == url[FragmentStart(url)..]
      && r[..FragmentStart(url)] + r[FragmentStart(url) + 1 + |param|..] == url
      && r[FragmentStart(url)] == Separator(url)
      && r[FragmentStart(url) + 1..FragmentStart(url) + 1 + |param|] == param
  {
    var i := FragmentStart(url);
    var r := AddParamToString(url, param);
    var pre, piece, tail := url[..i], [Separator(url)] + param, url[i..];
    assert r == pre + (piece + tail);
    assert r[..i] == pre;
    assert r[i + 1 + |param|..] == tail;
    assert r[i..i + 1 + |param|] == piece;
    assert pre + tail == url;
  }

  /** `lib.addParam(url, param)`: a non-string URL or an undefined parameter
      leaves the URL as it is. Otherwise the result is a string one separator
      and `param` longer than the URL: `param` sits right after the separator
      at the first `#` (or the end), and cutting the two out gives back the
      URL. */
  function AddParam(url: JsValue, param: Option<string>): (r: JsValue)
    ensures !url.Str? || param.None? ==> r == url
    ensures url.Str? && param.Some? ==> r == Str(AddParamToString(url.s, param.value))
    ensures url.Str? && param.Some? ==>
      var i, n := FragmentStart(url.s), |param.value|;
      && r.Str?
      && |r.s| == |url.s| + n + 1
      && r.s[i] == Separator(url.s)
      && r.s[i + 1..i + 1 + n] == param.value
      && r.s[..i] + r.s[i + 1 + n..] == url.s
  {
    if !url.Str? || param.None? then url
    else
      AddParamKeepsUrl(url.s, param.value);
      Str(AddParamToString(url.s, param.value))
  }

  /** Without a `#` the parameter is simply appended. */
  lemma AddParamWithoutFragment(url: string, param: string)
    requires '#' !in url
    ensures AddParamToString(url, param) == url + [Separator(url)] + param
  {
    assert url[..|url|] == url && url[|url|..] == [];
  }

  /** A `name=` placed right after a delimiter is the leftmost match when the
      text before it has none and the name holds no `=`: a match that started
      earlier would have to find its `=` inside the name or on the delimiter. */
  lemma InsertedIsLeftmost(pre: string, sep: char, name: string, rest: string)
    requires IsDelim(sep) && '=' !in name
    requires forall q :: !MatchesAt(pre, name, q)
    ensures LeftmostMatch(pre + [sep] + name + "=" + rest, name, |pre|)
  {
    var r := pre + [sep] + name + "=" + rest;
    var f := |pre|;
    assert r[f] == sep;
    assert r[f + 1..f + 1 + |name|] == name;
    assert r[f + 1 + |name|] == '=';
    forall q | 0 <= q < f
      ensures !MatchesAt(r, name, q)
    {
      var k := q + 1 + |name|;
      if k < f {
        assert r[q..k + 1] == pre[q..k + 1];
        assert r[q + 1..k] == pre[q + 1..k];
        assert MatchesAt(r, name, q) ==> MatchesAt(pre, name, q);
      } else if k == f {
        assert r[k] == sep;
      } else {
        assert r[k] == name[k - f - 1];
        assert name[k - f - 1] in name;
      }
    }
  }

  /** A value free of `&` and `#`, followed by the end or by `&` or `#`, is
      exactly what the capture takes. */
  lemma ValueBeforeStop(x: string, v: string, tail: string)
    requires '&' !in v && '#' !in v
    requires tail == [] || tail[0] == '&' || tail[0] == '#'
    ensures IsValueAt(x + v + tail, |x|, v)
  {
    var s := x + v + tail;
    assert s[|x|..|x| + |v|] == v;
    assert tail != [] ==> s[|x| + |v|] == tail[0];
  }

  /** `name=v` placed right after a delimiter, in a text with no earlier
      `name=` and followed by the end or by `&` or `#`, is read back as `v`. */
  lemma InsertedIsRead(pre: string, sep: char, name: string, v: string, tail: string)
    requires name != [] && RegexSafe(name) && '=' !in name && IsDelim(sep)
    requires forall q :: !MatchesAt(pre, name, q)
    requires '&' !in v && '#' !in v
    requires tail == [] || tail[0] == '&' || tail[0] == '#'
    ensures GetParam(pre + [sep] + name + "=" + v + tail, name) == Some(v)
  {
    var head := pre + [sep] + name + "=";
    var r := head + v + tail;
    assert r == pre + [sep] + name + "=" + (v + tail);
    InsertedIsLeftmost(pre, sep, name, v + tail);
    ValueBeforeStop(head, v, tail);
    GetParamAt(r, name, |pre|, v);
  }

  /** `addParam(url, name=v)` laid out as text before the fragment, separator,
      `name=v` and the fragment. */
  lemma AddedParamLayout(url: string, name: string, v: string)
    ensures var f := FragmentStart(url);
      && AddParamToString(url, name + "=" + v) == url[..f] + [Separator(url)] + name + "=" + v + url[f..]
      && (url[f..] == [] || url[f..][0] == '#')
  {
    var f := FragmentStart(url);
    assert url[..f] + [Separator(url)] + (name + "=" + v) + url[f..]
      == url[..f] + [Separator(url)] + name + "=" + v + url[f..];
  }

  /** Round trip: a parameter added with `addParam` is read back by `getParam`,
      as long as the URL before its fragment carries no earlier `name=`, the
      name is a literal pattern without `=`, and the value holds no `&` or `#`. */
  lemma GetAfterAdd(url: string, name: string, v: string)
    requires name != [] && RegexSafe(name) && '=' !in name
    requires GetParam(url[..FragmentStart(url)], name).None?
    requires '&' !in v && '#' !in v
    ensures GetParam(AddParamToString(url, name + "=" + v), name) == Some(v)
  {
    var f := FragmentStart(url);
    AddedParamLayout(url, name, v);
    InsertedIsRead(url[..f], Separator(url), name, v, url[f..]);
  }

  /** A URL that does not contain the first character of the name has no
      match. */
  lemma NoMatchWithoutInitial(url: string, name: string)
    requires name != [] && name[0] !in url
    ensures forall p :: !MatchesAt(url, name, p)
  {
    forall p | 0 <= p && p + |name| + 2 <= |url|
      ensures !MatchesAt(url, name, p)
    {
      assert url[p + 1..p + 1 + |name|][0] == url[p + 1];
    }
  }

  /** Two concrete lookups: a later parameter is found, a missing one is not. */
  lemma GetParamExamples()
    ensures GetParam("http://x?a=1&b=2", "b") == Some("2")
    ensures GetParam("http://x?a=1", "c") == None
  {
    var w := "http://x?a=1";
    assert RegexSafe("b") && RegexSafe("c");
    assert 'b' !in w && 'c' !in w;
    NoMatchWithoutInitial(w, "b");
    NoMatchWithoutInitial(w, "c");
    assert "http://x?a=1&b=2" == w + ['&'] + "b" + "=" + "2" + [];
    InsertedIsRead(w, '&', "b", "2", []);
  }
}

=== FILE: wrappers.dfy ===
/** Small value wrappers shared by the modules of the lib.js model. */
module Wrappers {

  /** An optional value; `None` stands for JavaScript's `undefined`. */
  datatype Option<+T> = None | Some(value: T)

  /** A JavaScript value as far as the URL helpers care: a string, or any other
      value (number, object, undefined, ...) identified by an opaque tag. */
  datatype JsValue = Str(s: string) | NonString(tag: nat)

  /** JavaScript truthiness of an optional string: only a non-empty string is truthy. */
  predicate Truthy(o: Option<string>)
  {
    o.Some? && o.value != ""
  }
}
